=== FILE: README.md ===
# BigNumber core in Dafny

This project models the `BigNumber` class of `index.ts`. A `BigNumber` is an arbitrary-precision signed decimal integer held in sign-magnitude form: a sign of +1 or -1 beside an array of decimal digits, least significant first. The model covers these parts of the class:

- construction from a string or from a digit array, one `addDigit` at a time;
- the comparator `_compare` and the predicates `gt`, `gte`, `equals`, `lte` and `lt`;
- the magnitude kernels `_add` and `_subtract`, and the sign dispatch of `add` and `minus`;
- schoolbook `multiply`;
- long `divide` by repeated subtraction, and `mod`;
- `isZero`, `isEven`, `abs` and `toString`.

Numbers are immutable values here. Every operation returns a new number where the engine overwrites its receiver. The error state, where the engine replaces the digit array with a message string, is modelled as a tagged `Value`: a number (`Num`) or an error (`Failed`, either `InvalidNumber` or `DivisionByZero`). Digits are unbounded integers in `[0, 9]`, and `Val` gives the natural number a digit sequence denotes.

Every call that takes an argument first copies it with `new BigNumber(x)`, which prints `x` and parses it back. `Construction.PrintParseRoundTrip` proves that this copy is the identity on every number with at least one digit. So the model passes arguments directly.

The comparator decides on the sign first, then on the digit count, then digit by digit. That is the integer order only when numbers are *canonical*: no high zero digits, and zero carries the sign +1. The constructor does not enforce that. The code keeps the digits exactly as written, including leading zeros and "-0", and the model follows the code. Arithmetic results are therefore stated exactly for canonical operands. Every operation keeps canonical operands canonical, except the quotient of `divide`: it takes the product of the signs before the digit loop, so a zero quotient can carry the sign -1. The gaps are logged under "Findings".

The files are:
- `digits.dfy`: digit sequences and `Val`;
- `number.dfy`: the number type and the unary queries;
- `construction.dfy`: parsing and printing;
- `comparison.dfy`: the comparator;
- `additive.dfy`: `_add`, `_subtract`, `add` and `minus`;
- `multiplicative.dfy`: `multiply`;
- `division.dfy`: `divide` and `mod`;
- `normalization.dfy`: the findings.

## Model

| member | source | states |
|---|---|---|
| Digits.TrimHighZeros | index.ts:219-227 | the result is a prefix of the input; only zero digits are dropped; the value is kept; a non-empty input leaves no high zero except in a single digit |
| BigNumbers.IsZero | index.ts:355-364 | true exactly when the number denotes 0, for any digit sequence (vacuously true with no digits) |
| BigNumbers.IsEven | index.ts:94-96 | on a number with digits, true exactly when the signed integer is even |
| BigNumbers.Abs | index.ts:350-353 | keeps the digits and always sets the sign to +1, so a negative zero becomes "0"; gives the absolute value of the integer, and keeps canonical numbers canonical |
| BigNumbers.CanonicalUnique | index.ts:98-132 | two canonical numbers denoting the same integer are identical, which the comparator's final `return 0` relies on |
| Construction.Ingest | index.ts:75-79 | succeeds exactly when every character is a decimal digit; reads the last character first, so it becomes the lowest digit; gives one digit per character |
| Construction.FromString | index.ts:68-80 | fails with InvalidNumber exactly when the string is empty or a character after the optional sign is not a digit; otherwise the sign is -1 exactly for a leading '-', with one digit per remaining character |
| Construction.IngestItems | index.ts:64-67 | succeeds exactly when every element is an integer digit, giving one digit per element |
| Construction.FromItems | index.ts:59-67 | fails exactly when the array is empty or an element after the optional sign marker is not a digit; the sign is -1 exactly for a leading '-' marker |
| Construction.IngestOrder | index.ts:75-79 | on a body of digit characters, digit i is the value of character len-1-i, so the last character is the lowest digit |
| Construction.IngestValue | index.ts:75-79 | the digits read from a body of digit characters denote the integer the body spells in decimal |
| Construction.FromStringValue | index.ts:68-80 | a decimal literal constructs the integer it spells, negated exactly for a leading '-' |
| Construction.Render | index.ts:373-375 | one digit character per digit, the highest digit printed first |
| Construction.RenderOrder | index.ts:373-375 | character i of the printed digits is digit len-1-i, so the highest digit comes first |
| Construction.ToString | index.ts:366-378 | an error prints its message; a number prints "-" exactly when the sign is negative, followed by `Render` of its digits (highest first) |
| Construction.ParsePrintRoundTrip | index.ts:68-80 | printing a parsed decimal literal gives it back verbatim, leading zeros and "-0" included, except that a leading '+' is dropped |
| Construction.PrintParseRoundTrip | index.ts:106 | printing then parsing gives the number back for every number with digits or a negative sign, so the argument copy is the identity on those |
| Construction.ItemsAgreeWithString | index.ts:59-80 | the array constructor on the elements corresponding to a string's characters gives the same result as the string constructor |
| Comparison.CompareDigits | index.ts:123-131 | the digit scan from the top returns -1, 0 or 1, and 0 exactly when the sequences are equal |
| Comparison.Compare | index.ts:98-132 | returns -1, 0 or 1, and 0 only for identical numbers |
| Comparison.CompareDigitsIsOrder | index.ts:121-131 | on digit sequences of one length, the scan is the sign of the difference of their values |
| Comparison.CompareAntisymmetric | index.ts:108-131 | swapping the operands negates the result, for every pair of numbers |
| Comparison.CompareIsSignOfDifference | index.ts:98-132 | on canonical numbers, the result is the sign of the difference of the integers |
| Comparison.OrderPredicates | index.ts:134-152 | on canonical numbers, each of gt, gte, equals, lte and lt is the integer relation; equals holds exactly for identical numbers; exactly one of gt, equals and lt holds |
| Additive.AddLoopStep | index.ts:202-205 | one step of `_add` keeps the carry at 0 or 1, the stored digit in range, and the low positions summing to the low parts of the operands |
| Additive.AddDigits | index.ts:197-208 | digits stay in range; the value is the sum; the length is the longer operand's, or one more with a top digit of 1; no high zeros in gives none out |
| Additive.SubtractLoopStep | index.ts:215-218 | one step of `_subtract` keeps the borrow at 0 or 1 and the stored digit in range |
| Additive.SubtractDigits | index.ts:210-229 | digits stay in range and the length does not grow; the value is the difference modulo 10^len(a); it is exact when b has no more digits than a and no greater value; high zeros are stripped down to one digit |
| Additive.Minus | index.ts:175-195 | with different signs, the exact difference; on canonical operands, a canonical exact difference; equal canonical operands give [0] with sign +1 |
| Additive.MinusSameSign | index.ts:187-192 | the equal-sign branch, with the sign from `lt` and the smaller magnitude subtracted from the larger, is the exact canonical difference |
| Additive.Add | index.ts:154-173 | with equal signs, the sign is kept and the sum is exact; on canonical operands, a canonical exact sum, the mixed-sign case going through `minus` |
| Multiplicative.RowSumStep | index.ts:249-251 | one inner step keeps the row's running sum: the result plus the carry equals the product so far plus a[i] times the digits of b read so far, at weight 10^i |
| Multiplicative.RowShapeStep | index.ts:249-251 | one inner step keeps the carry at most 9, the digits in range, and the shape of the positions above the row |
| Multiplicative.RowMeasureStep | index.ts:249-251 | one inner step lowers the termination measure |
| Multiplicative.RowEnd | index.ts:248-251 | after row i, the result is the product of the first i+1 digits of a with b |
| Multiplicative.ProductNoHighZeros | index.ts:247-256 | the full product of two non-zero operands without high zeros has none either |
| Multiplicative.MultiplyDigits | index.ts:247-252 | digits stay in range; the value is the product; at least len(a)+len(b)-1 digits; canonical non-zero inputs give no high zeros |
| Multiplicative.Multiply | index.ts:231-257 | a zero operand gives a fresh canonical zero; otherwise the sign is the product of the signs; the integer is the product; canonical operands give a canonical result |
| Division.BringDown | index.ts:289-290 | the rest becomes 10·rest + d and stays canonical and non-negative, the zero rest included |
| Division.QuotientDigit | index.ts:291-295 | brought = digit·divisor + new rest with 0 ≤ new rest < divisor; the digit is at most 9 when brought < 10·divisor |
| Division.LongDivide | index.ts:288-296 | one quotient digit per dividend digit, each at most 9; dividend = quotient·divisor + rest with rest < divisor |
| Division.DivideMagnitudes | index.ts:283-305 | for a divisor of 1 the quotient is the dividend's digits; otherwise the quotient has no high zeros, whatever the dividend's; the division law holds either way |
| Division.Divide | index.ts:259-310 | a zero divisor gives the DivisionByZero error and no rest; a zero dividend comes back unchanged with rest 0; otherwise quotient = dividend div divisor and rest = dividend mod divisor on magnitudes, the signed law holds, the sign is the product of the signs; a divisor of 1 keeps the dividend's digits, any other divisor gives a quotient without high zeros, and so does a dividend without them |
| Division.NegativeZeroQuotient | index.ts:279-305 | as written: a non-zero canonical dividend of smaller magnitude than a canonical divisor of the other sign gives the quotient "-0", which denotes 0 but is not canonical |
| Division.NegativeZeroQuotientExample | index.ts:279-305 | as written: 3 divided by -5 gives the quotient "-0" |
| Division.DivideNormalized | index.ts:259-310 | corrected: as `divide`, but a zero quotient has the sign +1; the division law holds, and canonical operands give a canonical quotient |
| Division.Mod | index.ts:312-314 | no rest exactly for a zero divisor; otherwise a canonical non-negative rest equal to the dividend's magnitude mod the divisor's |
| Normalization.LeadingZerosMisorder | index.ts:115-119 | as written: "5" denotes more than "003" but `lt` holds between them |
| Normalization.NegativeZeroUnequal | index.ts:110-112 | as written: a negative and a positive number with only zero digits, such as "-0" and "0", both denote 0 but `equals` does not hold |
| Normalization.Normalize | index.ts:59-80 | corrected: the result is canonical and denotes the same integer; a canonical number is unchanged |
| Normalization.FromStringNormalized | index.ts:68-80 | corrected constructor: succeeds exactly on decimal literals and gives a canonical number denoting the literal's integer |
| Normalization.CompareNormalized | index.ts:98-132 | after normalisation, the comparator is the sign of the integer difference and equals is integer equality, whatever the digits were |
| Normalization.NormalizedExamples | index.ts:98-132 | with the corrected constructor, "5" is above "003" and "-0" equals "0" |

## Left out

- `power` (index.ts:316-348) is left out. Apart from the undefined-argument return, only two of its paths return: an exponent of zero gives a fresh 1 (index.ts:327-329), and an argument that fails the type test `isValidType` (an empty string, an empty array, or a value of another type) puts the receiver in the error state (index.ts:322-325). A non-empty invalid string passes that test, becomes an error number, is not zero, and fails at `val()`. Every other exponent fails at `val()` (index.ts:330), which the class does not define, as it does not define `subtract` or `div`.
- The type sniffing `isValidType` and `isArray` (index.ts:15-28) is left out: the model takes strings and item arrays as separate constructors. A `null` from `_compare` for an invalid argument is left out with it.
- Construction from a native JavaScript `number` is left out because it goes through floating-point `toString`. The `10` that `divide` multiplies by is modelled as its digit form.
- The early return (`return this`, or a bare `return` in `power`) when an argument is `undefined` (index.ts:156-158, 177-179, 232-234, 260-262, 317-318) is left out, because JavaScript optional arguments have no counterpart here.
- Array construction shifts the sign marker off the caller's own array (index.ts:62). Mutating the argument is not modelled.
- String elements of an array pass `testDigit` and are pushed unconverted (index.ts:85). Items are integers or sign markers only.
- Object identity and aliasing are not modelled:
  - `add` returns the argument object in its mixed-sign branch (index.ts:167-168);
  - `multiply` with a zero operand returns a new zero and leaves its receiver unchanged (index.ts:241-242), which `divide` uses on a zero rest (index.ts:289).
- What the operations do on a number already in the error state is left out. So is the stale `rest` that `mod` returns after a division by zero (index.ts:45, 272, 313), which is modelled as no rest.
- Add: the exact sum is stated only for equal signs or canonical operands. In the mixed-sign case the comparator's length shortcut can misjudge the larger magnitude when an operand has high zeros (see Findings).
- Minus: the exact difference is stated only for different signs or canonical operands, for the same reason.
- Divide: requires the divisor to be zero or free of high zeros. With high zeros in the divisor the comparator misjudges the loop condition, and "50" divided by "05" comes out as 9 with rest 5.
- Mod: requires the same of the divisor as Divide.
- Sign-only strings "+" and "-" construct a number with no digits, as the code does. They print as "" and "-" and are excluded from `Construction.ParsePrintRoundTrip`.

## Findings

| source | as written | input that shows it | evidently intended | confidence | as-written member | corrected member |
|---|---|---|---|---|---|---|
| index.ts:59-80 | construction keeps leading zeros, and the comparator decides on digit count before digits (index.ts:115-119) | `new BigNumber("5").lt("003")` is true although 5 > 3 | construction drops high zero digits, so that comparing by length is the integer order | medium, not executed | Normalization.LeadingZerosMisorder | Normalization.FromStringNormalized |
| index.ts:70-72 | "-0" keeps the sign -1, and the comparator returns the receiver's sign whenever the signs differ (index.ts:110-112) | `new BigNumber("-0").equals("0")` is false although both denote 0 | zero carries the sign +1, so equal integers are `equals` | medium, not executed | Normalization.NegativeZeroUnequal | Normalization.Normalize |
| index.ts:279-305 | `divide` multiplies the signs before the digit loop and never resets the sign of a zero quotient | `new BigNumber("3").divide("-5")` gives "-0", which is not `equals` to 0 | a zero quotient carries the sign +1, like every other zero | medium, not executed | Division.NegativeZeroQuotient | Division.DivideNormalized |

=== FILE: additive.dfy ===
/**
 The additive kernel: carry-propagating magnitude addition, borrow-propagating
 magnitude subtraction, and the sign dispatch of `add` and `minus` on top.
 Each operation returns a new number where the engine rewrites its receiver.
 */
module Additive {
  import opened Digits
  import opened BigNumbers
  import opened Comparison

  /** What holds at the top of each step of `_add`: carry <= 1 and the low i positions sum correctly. */
  ghost predicate AddLoop(a: seq<int>, b: seq<int>, r: seq<int>, i: nat, carry: int) {
    var m := Max(|a|, |b|);
    && i <= m + 1
    && (carry == 0 || carry == 1)
    && |r| == Max(i, |a|)
    && (forall k :: i <= k < |a| ==> r[k] == a[k])
    && (forall k :: 0 <= k < i ==> IsDigit(r[k]))
    && Val(r[..i]) + carry * Pow10(i) == Val(Low(a, i)) + Val(Low(b, i))
    && (i == m + 1 ==> carry == 0 && r[m] == 1)
  }

  /** Storing s % 10 at weight p and carrying s / 10 at weight 10p keeps the running sum exact. */
  lemma CarryStep(v: int, c: int, p: int, x: int, y: int, lhs: int)
    requires c + x + y >= 0
    requires v + c * p == lhs
    ensures var s := c + x + y;
      v + (s % 10) * p + (s / 10) * (10 * p) == lhs + x * p + y * p
  {
    var s := c + x + y;
    var d, q := s % 10, s / 10;
    assert s == d + 10 * q;
    calc {
      d * p + q * (10 * p);
      (d + 10 * q) * p;
      s * p;
      c * p + x * p + y * p;
    }
  }

  lemma AddLoopStep(a: seq<int>, b: seq<int>, r: seq<int>, i: nat, carry: int)
    requires IsDigits(a) && IsDigits(b) && AddLoop(a, b, r, i, carry)
    requires i < Max(|a|, |b|) || carry > 0
    ensures var s := carry + At(r, i) + At(b, i);
      AddLoop(a, b, Put(r, i, s % 10), i + 1, s / 10)
  {
    var s := carry + At(r, i) + At(b, i);
    assert At(r, i) == At(a, i);
    var r' := Put(r, i, s % 10);
    assert r'[..i + 1] == r[..i] + [s % 10];
    ValPrefixStep(r', i);
    ValLowStep(a, i);
    ValLowStep(b, i);
    CarryStep(Val(r[..i]), carry, Pow10(i), At(a, i), At(b, i), Val(Low(a, i)) + Val(Low(b, i)));
    assert Pow10(i + 1) == 10 * Pow10(i);
    assert 0 <= s <= 19;
    assert s / 10 == 0 || s / 10 == 1;
    assert forall k :: i + 1 <= k < |a| ==> r'[k] == a[k];
    assert forall k :: 0 <= k < i + 1 ==> IsDigit(r'[k]);
    if i == Max(|a|, |b|) {
      assert s == 1;
    }
  }

  /**
   `_add`: adds the digits of b into those of a, position by position from
   the lowest, continuing past the longer operand while a carry remains.
   */
  method AddDigits(a: seq<int>, b: seq<int>) returns (r: seq<int>)
    requires IsDigits(a) && IsDigits(b)
    ensures IsDigits(r)
    ensures Val(r) == Val(a) + Val(b)
    ensures |r| == Max(|a|, |b|) || (|r| == Max(|a|, |b|) + 1 && r[|r| - 1] == 1)
    ensures NoHighZeros(a) && NoHighZeros(b) ==> NoHighZeros(r)
  {
    var m := Max(|a|, |b|);
    r := a;
    var carry := 0;
    var i := 0;
    while i < m || carry > 0
      invariant AddLoop(a, b, r, i, carry)
      decreases m + 1 - i
    {
      var s := carry + At(r, i) + At(b, i);
      AddLoopStep(a, b, r, i, carry);
      r := Put(r, i, s % 10);
      carry := s / 10;
      i := i + 1;
    }
    AddResult(a, b, r, i);
    if NoHighZeros(a) && NoHighZeros(b) {
      AddKeepsNoHighZeros(a, b, r);
    }
  }

  lemma AddResult(a: seq<int>, b: seq<int>, r: seq<int>, i: nat)
    requires AddLoop(a, b, r, i, 0) && i >= Max(|a|, |b|)
    ensures IsDigits(r)
    ensures Val(r) == Val(a) + Val(b)
    ensures |r| == Max(|a|, |b|) || (|r| == Max(|a|, |b|) + 1 && r[|r| - 1] == 1)
  {
    assert |r| == i;
    assert r[..i] == r;
    assert Low(a, i) == a && Low(b, i) == b;
  }

  lemma AddKeepsNoHighZeros(a: seq<int>, b: seq<int>, r: seq<int>)
    requires IsDigits(a) && IsDigits(b) && IsDigits(r) && NoHighZeros(a) && NoHighZeros(b)
    requires Val(r) == Val(a) + Val(b)
    requires |r| == Max(|a|, |b|) || (|r| == Max(|a|, |b|) + 1 && r[|r| - 1] == 1)
    ensures NoHighZeros(r)
  {
    var m := Max(|a|, |b|);
    if |r| == m && m > 1 {
      if |a| == m {
        TopDigitBound(a);
      } else {
        TopDigitBound(b);
      }
      ValBounds(a);
      ValBounds(b);
      if r[m - 1] == 0 {
        HighZeroBound(r);
      }
    }
  }

  /**
   `_subtract`: subtracts the digits of b from those of a with a borrow,
   over the positions of a only, then drops high zero digits. A final
   borrow is dropped, so the result is the difference wrapped by 10^|a|;
   it is the exact difference when b is no longer than a and not larger.
   */
  method SubtractDigits(a: seq<int>, b: seq<int>) returns (r: seq<int>)
    requires IsDigits(a) && IsDigits(b)
    ensures IsDigits(r) && |r| <= |a|
    ensures Val(r) == Val(a) - Val(Low(b, |a|)) + (if Val(a) < Val(Low(b, |a|)) then Pow10(|a|) else 0)
    ensures |b| <= |a| && Val(b) <= Val(a) ==> Val(r) == Val(a) - Val(b)
    ensures |a| > 0 ==> NoHighZeros(r)
  {
    var s := a;
    var borrow := 0;
    var i := 0;
    while i < |a|
      invariant SubtractLoop(a, b, s, i, borrow)
    {
      var t := s[i] - At(b, i) - borrow;
      SubtractLoopStep(a, b, s, i, borrow);
      borrow := if t < 0 then 1 else 0;
      s := s[i := t + 10 * borrow];
      i := i + 1;
    }
    SubtractResult(a, b, s, borrow);
    if |b| <= |a| {
      LowAll(b, |a|);
    }
    r := TrimHighZeros(s);
  }

  /** What holds at the top of each step of `_subtract`: borrow in {0, 1} and the low i positions subtract correctly. */
  ghost predicate SubtractLoop(a: seq<int>, b: seq<int>, s: seq<int>, i: nat, borrow: int) {
    && i <= |a| && |s| == |a|
    && (borrow == 0 || borrow == 1)
    && (forall k :: i <= k < |a| ==> s[k] == a[k])
    && (forall k :: 0 <= k < i ==> IsDigit(s[k]))
    && Val(s[..i]) - borrow * Pow10(i) == Val(a[..i]) - Val(Low(b, i))
  }

  lemma SubtractLoopStep(a: seq<int>, b: seq<int>, s: seq<int>, i: nat, borrow: int)
    requires IsDigits(a) && IsDigits(b) && SubtractLoop(a, b, s, i, borrow) && i < |a|
    ensures var t := s[i] - At(b, i) - borrow;
      var borrow' := if t < 0 then 1 else 0;
      SubtractLoop(a, b, s[i := t + 10 * borrow'], i + 1, borrow')
  {
    var t := s[i] - At(b, i) - borrow;
    var borrow' := if t < 0 then 1 else 0;
    var s' := s[i := t + 10 * borrow'];
    assert s'[..i + 1] == s[..i] + [t + 10 * borrow'];
    ValPrefixStep(s', i);
    ValPrefixStep(a, i);
    ValLowStep(b, i);
    BorrowStep(Val(s[..i]), borrow, Pow10(i), a[i], At(b, i), Val(a[..i]) - Val(Low(b, i)));
    assert Pow10(i + 1) == 10 * Pow10(i);
    assert s[i] == a[i] && IsDigit(t + 10 * borrow');
    assert forall k :: i + 1 <= k < |a| ==> s'[k] == a[k];
    assert forall k :: 0 <= k < i + 1 ==> IsDigit(s'[k]);
  }

  /** Storing t + 10 * borrow' at weight p and owing borrow' at weight 10p keeps the running difference exact. */
  lemma BorrowStep(v: int, borrow: int, p: int, x: int, y: int, rhs: int)
    requires v - borrow * p == rhs
    ensures var t := x - y - borrow;
      var borrow' := if t < 0 then 1 else 0;
      v + (t + 10 * borrow') * p - borrow' * (10 * p) == rhs + x * p - y * p
  {
    var t := x - y - borrow;
    var borrow' := if t < 0 then 1 else 0;
    calc {
      (t + 10 * borrow') * p - borrow' * (10 * p);
      t * p;
      x * p - y * p - borrow * p;
    }
  }

  lemma SubtractResult(a: seq<int>, b: seq<int>, s: seq<int>, borrow: int)
    requires IsDigits(a) && IsDigits(b) && SubtractLoop(a, b, s, |a|, borrow)
    ensures IsDigits(s)
    ensures Val(s) == Val(a) - Val(Low(b, |a|)) + (if Val(a) < Val(Low(b, |a|)) then Pow10(|a|) else 0)
  {
    SubtractLoopDone(a, b, s, borrow);
    assert IsDigits(s);
    ValBounds(s);
    ValBounds(a);
    ValBounds(Low(b, |a|));
    Pow10Monotone(|Low(b, |a|)|, |a|);
    Wrap(Val(s), Val(a), Val(Low(b, |a|)), borrow, Pow10(|a|));
  }

  lemma SubtractLoopDone(a: seq<int>, b: seq<int>, s: seq<int>, borrow: int)
    requires SubtractLoop(a, b, s, |a|, borrow)
    ensures Val(s) - borrow * Pow10(|a|) == Val(a) - Val(Low(b, |a|))
  {
    assert s[..|a|] == s && a[..|a|] == a;
  }

  /** A final borrow of 1 means the difference went below zero and wrapped by p. */
  lemma Wrap(vs: int, va: int, vb: int, borrow: int, p: int)
    requires 0 <= vs < p && 0 <= va < p && 0 <= vb < p
    requires borrow == 0 || borrow == 1
    requires vs - borrow * p == va - vb
    ensures vs == va - vb + (if va < vb then p else 0)
  {
  }

  /** The canonical sum of two canonical numbers of one sign keeps that sign. */
  lemma SameSignSum(a: BigNum, b: BigNum, ds: seq<int>)
    requires Canonical(a) && Canonical(b) && a.sign == b.sign
    requires IsDigits(ds) && NoHighZeros(ds) && Val(ds) == Val(a.digits) + Val(b.digits)
    ensures Canonical(BigNum(a.sign, ds))
    ensures IntVal(BigNum(a.sign, ds)) == IntVal(a) + IntVal(b)
  {
    ValBounds(a.digits);
    ValBounds(b.digits);
    ValZeroIff(a.digits);
    ValZeroIff(ds);
  }

  /**
   `minus`: with different signs the magnitudes are added under the
   receiver's sign; with equal signs the sign comes from `lt` and the
   smaller magnitude is subtracted from the larger.
   */
  method Minus(a: BigNum, b: BigNum) returns (r: BigNum)
    requires IsDigits(a.digits) && IsDigits(b.digits)
    ensures IsDigits(r.digits)
    ensures WellFormed(a) && WellFormed(b) ==> WellFormed(r)
    ensures a.sign != b.sign ==> IntVal(r) == IntVal(a) - IntVal(b)
    ensures Canonical(a) && Canonical(b) ==> Canonical(r) && IntVal(r) == IntVal(a) - IntVal(b)
    ensures Canonical(a) && Canonical(b) && a == b ==> r == Zero
  {
    if a.sign != b.sign {
      var ds := AddDigits(a.digits, b.digits);
      r := BigNum(a.sign, ds);
      MinusDifferentSigns(a, b, r);
    } else {
      var sign: Sign := if Lt(a, b) then -1 else 1;
      var ds;
      if Lt(Abs(a), Abs(b)) {
        ds := SubtractDigits(b.digits, a.digits);
      } else {
        ds := SubtractDigits(a.digits, b.digits);
      }
      r := BigNum(sign, ds);
      if Canonical(a) && Canonical(b) {
        MinusSameSign(a, b, r);
      }
    }
    if Canonical(a) && Canonical(b) && a == b {
      CanonicalZero(r);
    }
  }

  /** The different-sign branch of `minus`: the magnitudes add under the receiver's sign. */
  lemma MinusDifferentSigns(a: BigNum, b: BigNum, r: BigNum)
    requires IsDigits(a.digits) && IsDigits(b.digits) && a.sign != b.sign
    requires r.sign == a.sign && IsDigits(r.digits)
    requires Val(r.digits) == Val(a.digits) + Val(b.digits)
    requires NoHighZeros(a.digits) && NoHighZeros(b.digits) ==> NoHighZeros(r.digits)
    ensures IntVal(r) == IntVal(a) - IntVal(b)
    ensures Canonical(a) && Canonical(b) ==> Canonical(r)
  {
    if Canonical(a) && Canonical(b) {
      ValZeroIff(a.digits);
      ValZeroIff(b.digits);
      ValBounds(a.digits);
      ValBounds(b.digits);
      ValZeroIff(r.digits);
    }
  }

  /** The equal-sign branch of `minus` is exact on canonical numbers. */
  lemma MinusSameSign(a: BigNum, b: BigNum, r: BigNum)
    requires Canonical(a) && Canonical(b) && a.sign == b.sign
    requires r.sign == (if Lt(a, b) then -1 else 1)
    requires IsDigits(r.digits) && NoHighZeros(r.digits)
    requires Lt(Abs(a), Abs(b)) ==> Val(r.digits) == Val(b.digits) - Val(Low(a.digits, |b.digits|)) + (if Val(b.digits) < Val(Low(a.digits, |b.digits|)) then Pow10(|b.digits|) else 0)
    requires !Lt(Abs(a), Abs(b)) ==> Val(r.digits) == Val(a.digits) - Val(Low(b.digits, |a.digits|)) + (if Val(a.digits) < Val(Low(b.digits, |a.digits|)) then Pow10(|a.digits|) else 0)
    ensures Canonical(r) && IntVal(r) == IntVal(a) - IntVal(b)
  {
    var va, vb := Val(a.digits), Val(b.digits);
    CompareIsSignOfDifference(Abs(a), Abs(b));
    assert Lt(Abs(a), Abs(b)) <==> va < vb;
    if va < vb {
      ExactDifference(b.digits, a.digits, r.digits);
    } else {
      ExactDifference(a.digits, b.digits, r.digits);
    }
    assert Val(r.digits) == if va < vb then vb - va else va - vb;
    CompareIsSignOfDifference(a, b);
    ValZeroIff(r.digits);
    if a.sign == 1 {
      assert IntVal(a) - IntVal(b) == va - vb;
    } else {
      assert IntVal(a) - IntVal(b) == vb - va;
    }
  }

  /** When the larger magnitude comes first, the wrapped difference is the exact one. */
  lemma ExactDifference(x: seq<int>, y: seq<int>, d: seq<int>)
    requires IsDigits(x) && IsDigits(y) && NoHighZeros(x) && NoHighZeros(y)
    requires Val(y) <= Val(x)
    requires Val(d) == Val(x) - Val(Low(y, |x|)) + (if Val(x) < Val(Low(y, |x|)) then Pow10(|x|) else 0)
    ensures Val(d) == Val(x) - Val(y)
  {
    if |x| < |y| {
      ShorterIsSmaller(x, y);
    }
    LowAll(y, |x|);
  }

  /**
   `add`: with equal signs the magnitudes are added under that sign; with
   different signs it becomes a subtraction of the negative operand's
   magnitude from the positive one.
   */
  method Add(a: BigNum, b: BigNum) returns (r: BigNum)
    requires IsDigits(a.digits) && IsDigits(b.digits)
    ensures IsDigits(r.digits)
    ensures WellFormed(a) && WellFormed(b) ==> WellFormed(r)
    ensures a.sign == b.sign ==> r.sign == a.sign && IntVal(r) == IntVal(a) + IntVal(b)
    ensures Canonical(a) && Canonical(b) ==> Canonical(r) && IntVal(r) == IntVal(a) + IntVal(b)
  {
    if a.sign != b.sign {
      if a.sign > 0 {
        r := Minus(a, Abs(b));
      } else {
        r := Minus(b, Abs(a));
      }
    } else {
      var ds := AddDigits(a.digits, b.digits);
      r := BigNum(a.sign, ds);
      if Canonical(a) && Canonical(b) {
        SameSignSum(a, b, ds);
      }
    }
  }
}

=== FILE: comparison.dfy ===
/**
 The comparator `_compare` and the predicates derived from it. It decides
 on signs first, then on digit-sequence lengths, then digit by digit from
 the most significant end; it is the order of the integers only for
 canonical numbers.
 */
module Comparison {
  import opened Digits
  import opened BigNumbers

  function Sgn(x: int): int {
    if x > 0 then 1 else if x < 0 then -1 else 0
  }

  /** The digit-by-digit scan from the top for two sequences of one length. */
  function CompareDigits(x: seq<int>, y: seq<int>): (r: int)
    requires |x| == |y|
    ensures r == -1 || r == 0 || r == 1
    ensures r == 0 <==> x == y
  {
    if |x| == 0 then 0
    else if x[|x| - 1] > y[|y| - 1] then 1
    else if x[|x| - 1] < y[|y| - 1] then -1
    else
      var r := CompareDigits(x[..|x| - 1], y[..|y| - 1]);
      assert r == 0 ==> x == x[..|x| - 1] + [x[|x| - 1]] && y == y[..|y| - 1] + [y[|y| - 1]];
      r
  }

  /** `_compare`: the receiver's sign when signs differ, else the longer magnitude, else the first differing digit. */
  function Compare(a: BigNum, b: BigNum): (r: int)
    ensures r == -1 || r == 0 || r == 1
    ensures r == 0 ==> a == b
  {
    if a.sign != b.sign then a.sign as int
    else if |a.digits| > |b.digits| then a.sign
    else if |a.digits| < |b.digits| then -(a.sign as int)
    else a.sign * CompareDigits(a.digits, b.digits)
  }

  predicate Gt(a: BigNum, b: BigNum) {
    Compare(a, b) > 0
  }

  predicate Gte(a: BigNum, b: BigNum) {
    Compare(a, b) >= 0
  }

  predicate Equals(a: BigNum, b: BigNum) {
    Compare(a, b) == 0
  }

  predicate Lte(a: BigNum, b: BigNum) {
    Compare(a, b) <= 0
  }

  predicate Lt(a: BigNum, b: BigNum) {
    Compare(a, b) < 0
  }

  /** On digit sequences of one length the scan is the order of their values. */
  lemma {:induction false} CompareDigitsIsOrder(x: seq<int>, y: seq<int>)
    requires IsDigits(x) && IsDigits(y) && |x| == |y|
    ensures CompareDigits(x, y) == Sgn(Val(x) - Val(y))
  {
    if |x| > 0 {
      var n := |x| - 1;
      ValBounds(x[..n]);
      ValBounds(y[..n]);
      var p := Pow10(n);
      var lx, ly := Val(x[..n]), Val(y[..n]);
      assert Val(x) == lx + x[n] * p;
      assert Val(y) == ly + y[n] * p;
      if x[n] > y[n] {
        MulLe(y[n] + 1, x[n], p);
        assert (y[n] + 1) * p == y[n] * p + p;
        assert Val(x) - Val(y) > 0;
      } else if x[n] < y[n] {
        MulLe(x[n] + 1, y[n], p);
        assert (x[n] + 1) * p == x[n] * p + p;
        assert Val(x) - Val(y) < 0;
      } else {
        CompareDigitsIsOrder(x[..n], y[..n]);
        assert Val(x) - Val(y) == lx - ly;
      }
    }
  }

  /** The scan is antisymmetric on any two sequences of one length. */
  lemma {:induction false} CompareDigitsAntisymmetric(x: seq<int>, y: seq<int>)
    requires |x| == |y|
    ensures CompareDigits(x, y) == -CompareDigits(y, x)
  {
    if |x| > 0 && x[|x| - 1] == y[|y| - 1] {
      CompareDigitsAntisymmetric(x[..|x| - 1], y[..|y| - 1]);
    }
  }

  /** Swapping the operands negates the comparison, whatever the representation. */
  lemma CompareAntisymmetric(a: BigNum, b: BigNum)
    ensures Compare(a, b) == -Compare(b, a)
  {
    if a.sign == b.sign && |a.digits| == |b.digits| {
      CompareDigitsAntisymmetric(a.digits, b.digits);
    }
  }

  /** For canonical numbers the comparator returns the sign of the difference of their values. */
  lemma CompareIsSignOfDifference(a: BigNum, b: BigNum)
    requires Canonical(a) && Canonical(b)
    ensures Compare(a, b) == Sgn(IntVal(a) - IntVal(b))
  {
    if a.sign != b.sign {
      SignsDiffer(a, b);
    } else {
      SameSignMagnitudes(a, b);
      SignedSgn(a.sign, Val(a.digits), Val(b.digits));
    }
  }

  /** With different signs, the negative canonical number is below zero and the other is not. */
  lemma SignsDiffer(a: BigNum, b: BigNum)
    requires Canonical(a) && Canonical(b) && a.sign != b.sign
    ensures Compare(a, b) == Sgn(IntVal(a) - IntVal(b))
  {
    ValBounds(a.digits);
    ValBounds(b.digits);
    ValZeroIff(a.digits);
    ValZeroIff(b.digits);
  }

  /** With one sign, the comparator is that sign times the order of the magnitudes. */
  lemma SameSignMagnitudes(a: BigNum, b: BigNum)
    requires Canonical(a) && Canonical(b) && a.sign == b.sign
    ensures Compare(a, b) == a.sign * Sgn(Val(a.digits) - Val(b.digits))
  {
    if |a.digits| > |b.digits| {
      ShorterIsSmaller(b.digits, a.digits);
    } else if |a.digits| < |b.digits| {
      ShorterIsSmaller(a.digits, b.digits);
    } else {
      CompareDigitsIsOrder(a.digits, b.digits);
    }
  }

  lemma SignedSgn(s: Sign, x: int, y: int)
    ensures Sgn(s * x - s * y) == s * Sgn(x - y)
  {
    if s == -1 {
      assert s * x - s * y == -(x - y);
    }
  }

  /**
   For canonical numbers the derived predicates are the integer order, and
   exactly one of gt, equals and lt holds.
   */
  lemma OrderPredicates(a: BigNum, b: BigNum)
    requires Canonical(a) && Canonical(b)
    ensures Gt(a, b) <==> IntVal(a) > IntVal(b)
    ensures Gte(a, b) <==> IntVal(a) >= IntVal(b)
    ensures Equals(a, b) <==> IntVal(a) == IntVal(b)
    ensures Lte(a, b) <==> IntVal(a) <= IntVal(b)
    ensures Lt(a, b) <==> IntVal(a) < IntVal(b)
    ensures Equals(a, b) <==> a == b
    ensures (Gt(a, b) && !Equals(a, b) && !Lt(a, b))
         || (!Gt(a, b) && Equals(a, b) && !Lt(a, b))
         || (!Gt(a, b) && !Equals(a, b) && Lt(a, b))
  {
    CompareIsSignOfDifference(a, b);
  }
}

=== FILE: construction.dfy ===
/**
 Construction from a decimal string or from a sequence of items, and
 printing back to a string. Digits are read from the end of the input, so
 they are stored least-significant first; nothing strips leading zeros.
 */
module Construction {
  import opened Digits
  import opened BigNumbers

  /** The single-decimal-digit test applied to every character after the sign. */
  predicate IsDigitChar(c: char) {
    '0' <= c <= '9'
  }

  function DigitOf(c: char): (d: int)
    requires IsDigitChar(c)
    ensures IsDigit(d)
  {
    c as int - '0' as int
  }

  function CharOf(d: int): (c: char)
    requires IsDigit(d)
    ensures IsDigitChar(c) && DigitOf(c) == d
  {
    (d + '0' as int) as char
  }

  /** 1 when the string starts with a sign character, else 0. */
  function SignLength(s: string): nat {
    if |s| > 0 && (s[0] == '-' || s[0] == '+') then 1 else 0
  }

  function SignOf(s: string): Sign {
    if |s| > 0 && s[0] == '-' then -1 else 1
  }

  /** A string of the form [+-]?[0-9]+. */
  predicate IsDecimalLiteral(s: string) {
    |s| > SignLength(s) && forall i :: SignLength(s) <= i < |s| ==> IsDigitChar(s[i])
  }

  /**
   The `addDigit` loop over a string body: the last character is read
   first and becomes the lowest digit; the first non-digit aborts.
   */
  function Ingest(body: string): (r: Option<seq<int>>)
    ensures r.Some? <==> forall i :: 0 <= i < |body| ==> IsDigitChar(body[i])
    ensures r.Some? ==> |r.value| == |body| && IsDigits(r.value)
    ensures r.Some? && |body| > 0 ==> r.value[0] == DigitOf(body[|body| - 1])
  {
    if |body| == 0 then Some([])
    else if !IsDigitChar(body[|body| - 1]) then None
    else match Ingest(body[..|body| - 1])
      case None => None
      case Some(ds) => Some([DigitOf(body[|body| - 1])] + ds)
  }

  /** The integer a string of decimal digits denotes, read from the left. */
  function Decimal(t: string): nat
    requires forall i :: 0 <= i < |t| ==> IsDigitChar(t[i])
  {
    if |t| == 0 then 0 else 10 * Decimal(t[..|t| - 1]) + DigitOf(t[|t| - 1])
  }

  /** The digits read from a string body denote the integer the body spells. */
  lemma {:induction false} IngestValue(body: string)
    requires forall i :: 0 <= i < |body| ==> IsDigitChar(body[i])
    ensures Ingest(body).Some? && Val(Ingest(body).value) == Decimal(body)
  {
    if |body| > 0 {
      var pre := body[..|body| - 1];
      IngestValue(pre);
      ValPrepend(DigitOf(body[|body| - 1]), Ingest(pre).value);
    }
  }

  /** `new BigNumber(s)` for a string s. */
  function FromString(s: string): (v: Value)
    ensures v.Failed? ==> v.err == InvalidNumber
    ensures v.Num? <==> |s| > 0 && forall i :: SignLength(s) <= i < |s| ==> IsDigitChar(s[i])
    ensures v.Num? ==> IsDigits(v.n.digits) && |v.n.digits| == |s| - SignLength(s)
    ensures v.Num? ==> (v.n.sign == -1 <==> s[0] == '-')
  {
    if |s| == 0 then Failed(InvalidNumber)
    else match Ingest(s[SignLength(s)..])
      case None => Failed(InvalidNumber)
      case Some(ds) => Num(BigNum(SignOf(s), ds))
  }

  /** A decimal literal constructs the signed integer it spells. */
  lemma FromStringValue(s: string)
    requires IsDecimalLiteral(s)
    ensures FromString(s).Num?
    ensures IntVal(FromString(s).n) == SignOf(s) * Decimal(s[SignLength(s)..])
  {
    var body := s[SignLength(s)..];
    forall i | 0 <= i < |body|
      ensures IsDigitChar(body[i])
    {
      assert body[i] == s[SignLength(s) + i];
    }
    IngestValue(body);
  }

  /** An element of the array form of the constructor's input. */
  datatype Item = PlusMark | MinusMark | Int(n: int)

  predicate IsDigitItem(x: Item) {
    x.Int? && IsDigit(x.n)
  }

  function ItemSignLength(xs: seq<Item>): nat {
    if |xs| > 0 && (xs[0] == PlusMark || xs[0] == MinusMark) then 1 else 0
  }

  /** The `addDigit` loop over the items after the sign, read from the last one. */
  function IngestItems(body: seq<Item>): (r: Option<seq<int>>)
    ensures r.Some? <==> forall i :: 0 <= i < |body| ==> IsDigitItem(body[i])
    ensures r.Some? ==> |r.value| == |body| && IsDigits(r.value)
  {
    if |body| == 0 then Some([])
    else if !IsDigitItem(body[|body| - 1]) then None
    else match IngestItems(body[..|body| - 1])
      case None => None
      case Some(ds) => Some([body[|body| - 1].n] + ds)
  }

  /** `new BigNumber(xs)` for an array xs, optionally headed by a sign marker. */
  function FromItems(xs: seq<Item>): (v: Value)
    ensures v.Failed? ==> v.err == InvalidNumber
    ensures v.Num? <==> |xs| > 0 && forall i :: ItemSignLength(xs) <= i < |xs| ==> IsDigitItem(xs[i])
    ensures v.Num? ==> IsDigits(v.n.digits) && |v.n.digits| == |xs| - ItemSignLength(xs)
    ensures v.Num? ==> (v.n.sign == -1 <==> xs[0] == MinusMark)
  {
    if |xs| == 0 then Failed(InvalidNumber)
    else
      var sign: Sign := if xs[0] == MinusMark then -1 else 1;
      match IngestItems(xs[ItemSignLength(xs)..])
      case None => Failed(InvalidNumber)
      case Some(ds) => Num(BigNum(sign, ds))
  }

  /** The digits printed most-significant first. */
  function Render(ds: seq<int>): (s: string)
    requires IsDigits(ds)
    ensures |s| == |ds|
    ensures forall i :: 0 <= i < |s| ==> IsDigitChar(s[i])
    ensures |ds| > 0 ==> s[0] == CharOf(ds[|ds| - 1])
  {
    if |ds| == 0 then "" else Render(ds[1..]) + [CharOf(ds[0])]
  }

  function Message(e: Error): string {
    match e
    case InvalidNumber => "Invalid Number"
    case DivisionByZero => "Invalid Number - Division By Zero"
  }

  /** `toString`: the error message, or "-" for a negative sign followed by the digits. */
  function ToString(v: Value): (s: string)
    requires v.Num? ==> IsDigits(v.n.digits)
    ensures v.Failed? ==> s == Message(v.err)
    ensures v.Num? ==> |s| == |v.n.digits| + (if v.n.sign == -1 then 1 else 0)
    ensures v.Num? && v.n.sign == -1 ==> s[0] == '-'
    ensures v.Num? ==> s[|s| - |v.n.digits|..] == Render(v.n.digits)
  {
    match v
    case Failed(e) => Message(e)
    case Num(x) => (if x.sign > 0 then "" else "-") + Render(x.digits)
  }

  /** Reading back what `Render` printed gives the digits again. */
  lemma {:induction false} IngestRender(ds: seq<int>)
    requires IsDigits(ds)
    ensures Ingest(Render(ds)) == Some(ds)
  {
    if |ds| > 0 {
      var t := Render(ds);
      assert t[..|t| - 1] == Render(ds[1..]);
      IngestRender(ds[1..]);
      assert ds == [ds[0]] + ds[1..];
    }
  }

  /** Printing what `Ingest` read gives the body again. */
  lemma {:induction false} RenderIngest(body: string)
    requires forall i :: 0 <= i < |body| ==> IsDigitChar(body[i])
    ensures Render(Ingest(body).value) == body
  {
    if |body| > 0 {
      var n := |body| - 1;
      var pre := body[..n];
      var ds := Ingest(body).value;
      assert ds == [DigitOf(body[n])] + Ingest(pre).value;
      assert ds[1..] == Ingest(pre).value;
      RenderIngest(pre);
      assert Render(ds) == pre + [CharOf(ds[0])];
      assert body == pre + [body[n]];
    }
  }

  /** Digit i read by `Ingest` is character |body| - 1 - i of the body. */
  lemma {:induction false} IngestOrder(body: string)
    requires forall i :: 0 <= i < |body| ==> IsDigitChar(body[i])
    ensures Ingest(body).Some?
    ensures forall i :: 0 <= i < |body| ==> Ingest(body).value[i] == DigitOf(body[|body| - 1 - i])
  {
    if |body| > 0 {
      var n := |body| - 1;
      IngestOrder(body[..n]);
      var ds, pre := Ingest(body).value, Ingest(body[..n]).value;
      forall i | 1 <= i < |body|
        ensures ds[i] == DigitOf(body[n - i])
      {
        assert ds[i] == pre[i - 1];
      }
    }
  }

  /** Character i printed by `Render` is digit |ds| - 1 - i. */
  lemma {:induction false} RenderOrder(ds: seq<int>)
    requires IsDigits(ds)
    ensures forall i :: 0 <= i < |ds| ==> Render(ds)[i] == CharOf(ds[|ds| - 1 - i])
  {
    if |ds| > 0 {
      RenderOrder(ds[1..]);
      var t, rest := Render(ds), Render(ds[1..]);
      forall i | 0 <= i < |ds| - 1
        ensures t[i] == CharOf(ds[|ds| - 1 - i])
      {
        assert t[i] == rest[i];
      }
    }
  }

  /**
   Printing a parsed decimal literal gives it back verbatim, leading zeros
   and a "-0" included, except that a leading "+" is dropped.
   */
  lemma ParsePrintRoundTrip(s: string)
    requires IsDecimalLiteral(s)
    ensures FromString(s).Num?
    ensures ToString(FromString(s)) == if s[0] == '+' then s[1..] else s
  {
    var body := s[SignLength(s)..];
    var ds := Ingest(body);
    assert ds.Some?;
    assert FromString(s) == Num(BigNum(SignOf(s), ds.value));
    RenderIngest(body);
    var printed := ToString(FromString(s));
    if s[0] == '-' {
      assert printed == "-" + body;
      assert s == [s[0]] + s[1..];
    } else if s[0] == '+' {
      assert printed == body;
    } else {
      assert printed == body;
      assert s == body;
    }
  }

  /**
   Parsing a printed number gives the same number back, so `new BigNumber(x)`
   copies x; it fails only for a positive number with no digits, which
   prints as the empty string.
   */
  lemma PrintParseRoundTrip(x: BigNum)
    requires IsDigits(x.digits)
    ensures FromString(ToString(Num(x))) == Num(x) <==> |x.digits| > 0 || x.sign == -1
  {
    var s := ToString(Num(x));
    IngestRender(x.digits);
    if x.sign == -1 {
      assert s[SignLength(s)..] == Render(x.digits);
    } else if |x.digits| > 0 {
      assert s[0] == CharOf(x.digits[|x.digits| - 1]);
      assert s[SignLength(s)..] == Render(x.digits);
    }
  }

  /** The array element a character corresponds to; a non-digit character maps to a non-digit item. */
  function ItemOf(c: char): Item {
    if c == '+' then PlusMark
    else if c == '-' then MinusMark
    else if IsDigitChar(c) then Int(DigitOf(c))
    else Int(-1)
  }

  function ItemsOf(s: string): (xs: seq<Item>)
    ensures |xs| == |s| && forall i :: 0 <= i < |s| ==> xs[i] == ItemOf(s[i])
  {
    seq(|s|, i requires 0 <= i < |s| => ItemOf(s[i]))
  }

  lemma {:induction false} IngestItemsAgrees(body: string)
    ensures IngestItems(ItemsOf(body)) == Ingest(body)
  {
    if |body| > 0 {
      var n := |body| - 1;
      assert ItemsOf(body)[..n] == ItemsOf(body[..n]);
      IngestItemsAgrees(body[..n]);
    }
  }

  /** The array form and the string form of the constructor agree element by character. */
  lemma ItemsAgreeWithString(s: string)
    ensures FromItems(ItemsOf(s)) == FromString(s)
  {
    if |s| > 0 {
      var k := SignLength(s);
      assert ItemsOf(s)[k..] == ItemsOf(s[k..]);
      IngestItemsAgrees(s[k..]);
    }
  }
}

=== FILE: digits.dfy ===
/**
 The digit-sequence substrate of the big-number engine: magnitudes are
 sequences of decimal digits stored least-significant first, and `Val`
 is the abstraction function that gives the natural number they denote.
 */
module Digits {

  predicate IsDigit(d: int) {
    0 <= d <= 9
  }

  /** Every entry is a single decimal digit. */
  predicate IsDigits(ds: seq<int>) {
    forall i :: 0 <= i < |ds| ==> IsDigit(ds[i])
  }

  function Pow10(n: nat): (p: nat)
    ensures p >= 1
  {
    if n == 0 then 1 else 10 * Pow10(n - 1)
  }

  function Max(a: int, b: int): int {
    if a < b then b else a
  }

  /** The magnitude denoted by a digit sequence: the sum of ds[i] * 10^i. */
  function Val(ds: seq<int>): int {
    if |ds| == 0 then 0 else Val(ds[..|ds| - 1]) + ds[|ds| - 1] * Pow10(|ds| - 1)
  }

  /** The digit at position i, or 0 past the end (the `ds[i] || 0` idiom of the engine). */
  function At(ds: seq<int>, i: nat): int {
    if i < |ds| then ds[i] else 0
  }

  /** The lowest n digits, or all of them when there are fewer than n. */
  function Low(ds: seq<int>, n: nat): seq<int> {
    if n <= |ds| then ds[..n] else ds
  }

  lemma LowAll(ds: seq<int>, n: nat)
    requires |ds| <= n
    ensures Low(ds, n) == ds
  {
    if n == |ds| {
      assert ds[..n] == ds;
    }
  }

  /** Store d at position k, growing the sequence by one when k is its length. */
  function Put(ds: seq<int>, k: nat, d: int): (r: seq<int>)
    requires k <= |ds|
    ensures |r| == Max(|ds|, k + 1)
    ensures r[k] == d
    ensures forall j :: 0 <= j < |ds| && j != k ==> r[j] == ds[j]
    ensures IsDigits(ds) && IsDigit(d) ==> IsDigits(r)
  {
    if k < |ds| then ds[k := d] else ds + [d]
  }

  /** No high-index zero digit, except in the one-digit sequence. */
  predicate NoHighZeros(ds: seq<int>) {
    |ds| > 0 && (|ds| == 1 || ds[|ds| - 1] != 0)
  }

  predicate AllZero(ds: seq<int>) {
    forall i :: 0 <= i < |ds| ==> ds[i] == 0
  }

  /**
   Drops high-index zero digits while more than one digit is left; the
   clean-up that ends both subtraction and division.
   */
  function TrimHighZeros(ds: seq<int>): (r: seq<int>)
    ensures |r| <= |ds| && r == ds[..|r|]
    ensures forall k :: |r| <= k < |ds| ==> ds[k] == 0
    ensures Val(r) == Val(ds)
    ensures |ds| > 0 ==> NoHighZeros(r)
    ensures IsDigits(ds) ==> IsDigits(r)
  {
    if |ds| > 1 && ds[|ds| - 1] == 0 then TrimHighZeros(ds[..|ds| - 1]) else ds
  }

  lemma Pow10Add(m: nat, n: nat)
    ensures Pow10(m + n) == Pow10(m) * Pow10(n)
  {
    if m > 0 {
      Pow10Add(m - 1, n);
    }
  }

  lemma Pow10Monotone(m: nat, n: nat)
    requires m <= n
    ensures Pow10(m) <= Pow10(n)
  {
    if m < n {
      Pow10Monotone(m, n - 1);
    }
  }

  /** A digit sequence of length n denotes a number in [0, 10^n). */
  lemma {:induction false} ValBounds(ds: seq<int>)
    requires IsDigits(ds)
    ensures 0 <= Val(ds) < Pow10(|ds|)
  {
    if |ds| > 0 {
      var n := |ds| - 1;
      ValBounds(ds[..n]);
      assert Val(ds) == Val(ds[..n]) + ds[n] * Pow10(n);
      assert ds[n] * Pow10(n) <= 9 * Pow10(n);
    }
  }

  lemma ValPrefixStep(ds: seq<int>, i: nat)
    requires i < |ds|
    ensures Val(ds[..i + 1]) == Val(ds[..i]) + ds[i] * Pow10(i)
  {
    assert ds[..i + 1][..i] == ds[..i];
  }

  lemma ValLowStep(ds: seq<int>, n: nat)
    ensures Val(Low(ds, n + 1)) == Val(Low(ds, n)) + At(ds, n) * Pow10(n)
  {
    if n < |ds| {
      ValPrefixStep(ds, n);
    } else {
      assert Low(ds, n + 1) == Low(ds, n);
    }
  }

  lemma {:induction false} ValPut(ds: seq<int>, k: nat, d: int)
    requires k <= |ds|
    ensures Val(Put(ds, k, d)) == Val(ds) + (d - At(ds, k)) * Pow10(k)
    decreases |ds|
  {
    var r := Put(ds, k, d);
    if k == |ds| {
      assert r[..|r| - 1] == ds;
    } else if k == |ds| - 1 {
      assert r[..|r| - 1] == ds[..k];
    } else {
      var n := |ds| - 1;
      assert r[..n] == Put(ds[..n], k, d);
      ValPut(ds[..n], k, d);
      calc {
        Val(r);
        Val(r[..n]) + ds[n] * Pow10(n);
        Val(ds[..n]) + (d - ds[k]) * Pow10(k) + ds[n] * Pow10(n);
      }
    }
  }

  /** Shifting a sequence up one place and putting d at the bottom gives d + 10 * value. */
  lemma {:induction false} ValPrepend(d: int, ds: seq<int>)
    ensures Val([d] + ds) == d + 10 * Val(ds)
    decreases |ds|
  {
    if |ds| > 0 {
      var n := |ds| - 1;
      var s := [d] + ds;
      assert s[..|s| - 1] == [d] + ds[..n];
      ValPrepend(d, ds[..n]);
      calc {
        Val(s);
        Val([d] + ds[..n]) + ds[n] * Pow10(n + 1);
        d + 10 * Val(ds[..n]) + ds[n] * Pow10(n + 1);
        d + 10 * (Val(ds[..n]) + ds[n] * Pow10(n));
      }
    } else {
      assert ([d] + ds)[..0] == [];
    }
  }

  lemma ValSuffixStep(ds: seq<int>, i: nat)
    requires i < |ds|
    ensures Val(ds[i..]) == ds[i] + 10 * Val(ds[i + 1..])
  {
    assert ds[i..] == [ds[i]] + ds[i + 1..];
    ValPrepend(ds[i], ds[i + 1..]);
  }

  /** The lowest digit is the value modulo 10. */
  lemma ValLowestDigit(ds: seq<int>)
    requires IsDigits(ds) && |ds| > 0
    ensures Val(ds) % 10 == ds[0]
    ensures Val(ds) / 10 == Val(ds[1..])
  {
    assert ds == [ds[0]] + ds[1..];
    ValPrepend(ds[0], ds[1..]);
    DivMod10(Val(ds), Val(ds[1..]), ds[0]);
  }

  lemma DivMod10(n: int, q: int, r: int)
    requires n == r + 10 * q && 0 <= r < 10
    ensures n % 10 == r && n / 10 == q
  {
  }

  lemma MulLe(a: int, b: int, c: nat)
    requires a <= b
    ensures a * c <= b * c
  {
  }

  /** Splitting at a power of ten is unique: equal numbers have equal top and low parts. */
  lemma SplitUnique(lo1: int, hi1: int, lo2: int, hi2: int, p: int)
    requires 0 <= lo1 < p && 0 <= lo2 < p
    requires lo1 + hi1 * p == lo2 + hi2 * p
    ensures hi1 == hi2 && lo1 == lo2
  {
    if hi1 < hi2 {
      MulLe(hi1 + 1, hi2, p);
    } else if hi2 < hi1 {
      MulLe(hi2 + 1, hi1, p);
    }
  }

  lemma {:induction false} ValZeroIff(ds: seq<int>)
    requires IsDigits(ds)
    ensures Val(ds) == 0 <==> AllZero(ds)
  {
    if |ds| > 0 {
      var n := |ds| - 1;
      var pre := ds[..n];
      ValZeroIff(pre);
      ValBounds(pre);
      assert Val(ds) == Val(pre) + ds[n] * Pow10(n);
      if ds[n] != 0 {
        MulLe(1, ds[n], Pow10(n));
        assert !AllZero(ds) by {
          assert ds[n] != 0;
        }
      } else {
        assert Val(ds) == Val(pre);
        if AllZero(pre) {
          forall i | 0 <= i < |ds|
            ensures ds[i] == 0
          {
            if i < n {
              assert ds[i] == pre[i];
            }
          }
        }
        if AllZero(ds) {
          forall i | 0 <= i < n
            ensures pre[i] == 0
          {
            assert pre[i] == ds[i];
          }
        }
      }
    }
  }

  /** A sequence without high zeros that is not zero is at least 10^(length - 1). */
  lemma TopDigitBound(ds: seq<int>)
    requires IsDigits(ds) && NoHighZeros(ds) && !AllZero(ds)
    ensures Pow10(|ds| - 1) <= Val(ds)
  {
    var n := |ds| - 1;
    ValBounds(ds[..n]);
    if n == 0 {
      assert ds[0] != 0;
    }
    MulLe(1, ds[n], Pow10(n));
  }

  /** A top digit of zero keeps the value below 10^(length - 1). */
  lemma HighZeroBound(ds: seq<int>)
    requires IsDigits(ds) && |ds| > 0 && ds[|ds| - 1] == 0
    ensures Val(ds) < Pow10(|ds| - 1)
  {
    ValBounds(ds[..|ds| - 1]);
  }

  /** Against a sequence without high zeros, the shorter sequence denotes the smaller number. */
  lemma ShorterIsSmaller(x: seq<int>, y: seq<int>)
    requires IsDigits(x) && IsDigits(y) && NoHighZeros(y)
    requires 0 < |x| < |y|
    ensures Val(x) < Val(y)
  {
    ValBounds(x);
    assert y[|y| - 1] != 0;
    TopDigitBound(y);
    Pow10Monotone(|x|, |y| - 1);
  }

  /** Two digit sequences of one length denote the same number only when equal. */
  lemma {:induction false} ValInjective(x: seq<int>, y: seq<int>)
    requires IsDigits(x) && IsDigits(y) && |x| == |y|
    requires Val(x) == Val(y)
    ensures x == y
  {
    if |x| > 0 {
      var n := |x| - 1;
      ValBounds(x[..n]);
      ValBounds(y[..n]);
      SplitUnique(Val(x[..n]), x[n], Val(y[..n]), y[n], Pow10(n));
      ValInjective(x[..n], y[..n]);
      assert x == x[..n] + [x[n]];
      assert y == y[..n] + [y[n]];
    }
  }

  /** The only all-zero sequence without high zeros is [0]. */
  lemma CanonicalZeroDigits(ds: seq<int>)
    requires NoHighZeros(ds) && AllZero(ds)
    ensures ds == [0]
  {
  }

  /** Among sequences without high zeros, equal value means equal sequences. */
  lemma ValUnique(x: seq<int>, y: seq<int>)
    requires IsDigits(x) && IsDigits(y) && NoHighZeros(x) && NoHighZeros(y)
    requires Val(x) == Val(y)
    ensures x == y
  {
    if |x| < |y| {
      ShorterIsSmaller(x, y);
    } else if |y| < |x| {
      ShorterIsSmaller(y, x);
    } else {
      ValInjective(x, y);
    }
  }
}

=== FILE: division.dfy ===
/**
 Long division as `divide` performs it: bring down one digit of the
 dividend at a time into a running rest, then subtract the divisor from the
 rest as often as it fits, which gives one quotient digit.
 */
module Division {
  import opened Digits
  import opened BigNumbers
  import opened Comparison
  import opened Additive
  import opened Multiplicative

  /** The number 10 that `rest.multiply(10)` multiplies by. */
  const Ten: BigNum := BigNum(1, [0, 1])

  /** A non-negative canonical number: what the running rest always is. */
  predicate IsRest(x: BigNum) {
    Canonical(x) && x.sign == 1
  }

  /**
   Shifts the rest one place up and stores the next dividend digit in the
   freed lowest place; a zero rest is left as it is before the store.
   */
  method BringDown(rest: BigNum, d: int) returns (r: BigNum)
    requires IsRest(rest) && IsDigit(d)
    ensures IsRest(r)
    ensures Val(r.digits) == 10 * Val(rest.digits) + d
  {
    var shifted := rest;
    if !IsZero(rest) {
      shifted := Multiply(rest, Ten);
      TenValue();
      ShiftedLowestDigit(shifted.digits, Val(rest.digits));
    } else {
      CanonicalZero(rest);
    }
    r := BigNum(1, shifted.digits[0 := d]);
    StoreLowestDigit(shifted.digits, d);
    if AllZero(r.digits) {
      ValZeroIff(r.digits);
    }
  }

  lemma TenValue()
    ensures IntVal(Ten) == 10 && Canonical(Ten) && !IsZero(Ten)
  {
    assert Ten.digits[..1] == [0];
    assert [0][..0] == [];
  }

  lemma ShiftedLowestDigit(ds: seq<int>, v: int)
    requires IsDigits(ds) && |ds| > 0 && Val(ds) == v * 10
    ensures ds[0] == 0
  {
    ValLowestDigit(ds);
    DivMod10(Val(ds), v, 0);
  }

  /** Storing d over a zero lowest digit adds d, and keeps a non-zero top digit. */
  lemma StoreLowestDigit(ds: seq<int>, d: int)
    requires IsDigits(ds) && NoHighZeros(ds) && IsDigit(d)
    requires ds[0] == 0
    ensures IsDigits(ds[0 := d]) && NoHighZeros(ds[0 := d])
    ensures Val(ds[0 := d]) == Val(ds) + d
  {
    var e := ds[0 := d];
    ValLowestDigit(ds);
    ValLowestDigit(e);
    assert e[1..] == ds[1..];
  }

  /** On rests, `lte` is the order of the values. */
  lemma LteIsOrder(x: BigNum, y: BigNum)
    requires IsRest(x) && IsRest(y)
    ensures Lte(x, y) <==> Val(x.digits) <= Val(y.digits)
  {
    OrderPredicates(x, y);
  }

  /**
   The inner loop of `divide`: subtracts the divisor from the rest while it
   is not larger, counting the subtractions.
   */
  method QuotientDigit(divisor: BigNum, rest: BigNum) returns (digit: int, r: BigNum)
    requires IsRest(divisor) && !IsZero(divisor) && IsRest(rest)
    ensures IsRest(r)
    ensures Val(rest.digits) == digit * Val(divisor.digits) + Val(r.digits)
    ensures 0 <= digit && 0 <= Val(r.digits) < Val(divisor.digits)
    ensures Val(rest.digits) < 10 * Val(divisor.digits) ==> digit <= 9
  {
    var vd := Val(divisor.digits);
    ValBounds(divisor.digits);
    digit := 0;
    r := rest;
    LteIsOrder(divisor, r);
    ValBounds(r.digits);
    while Lte(divisor, r)
      invariant IsRest(r) && 0 <= digit
      invariant Val(rest.digits) == digit * vd + Val(r.digits)
      invariant 0 <= Val(r.digits)
      invariant Lte(divisor, r) <==> vd <= Val(r.digits)
      decreases Val(r.digits)
    {
      ghost var before := r;
      r := Minus(r, divisor);
      RestStep(before, divisor, r);
      MulSucc(digit, vd);
      digit := digit + 1;
      LteIsOrder(divisor, r);
    }
    if Val(rest.digits) < 10 * vd {
      DigitBound(digit, vd, Val(r.digits), Val(rest.digits));
    }
  }

  /** Subtracting a divisor that fits from a rest leaves a smaller rest. */
  lemma RestStep(r: BigNum, divisor: BigNum, r': BigNum)
    requires IsRest(r) && IsRest(divisor) && Canonical(r')
    requires IntVal(r') == IntVal(r) - IntVal(divisor)
    requires 0 < Val(divisor.digits) <= Val(r.digits)
    ensures IsRest(r') && Val(r'.digits) == Val(r.digits) - Val(divisor.digits)
  {
    ValBounds(r'.digits);
    ValZeroIff(r'.digits);
  }

  lemma MulSucc(d: int, v: int)
    ensures (d + 1) * v == d * v + v
  {
  }

  lemma DigitBound(digit: int, vd: int, vr: int, v: int)
    requires 0 < vd && 0 <= digit && 0 <= vr && v == digit * vd + vr && v < 10 * vd
    ensures digit <= 9
  {
    if digit >= 10 {
      MulLe(10, digit, vd);
    }
  }

  /** One brought-down digit extends the quotient by one digit and keeps the division law. */
  lemma LongStep(va: int, d: int, q: int, vb: int, rest: int, digit: int, rest': int)
    requires va == q * vb + rest
    requires 10 * rest + d == digit * vb + rest'
    ensures d + 10 * va == (digit + 10 * q) * vb + rest'
  {
  }

  /**
   What holds after the digits of the dividend from position i upward are
   brought down: they are the quotient digits so far times the divisor plus
   the rest.
   */
  ghost predicate LongLoop(a: seq<int>, vb: int, qs: seq<int>, rest: BigNum, i: nat) {
    && i <= |a|
    && |qs| == |a| - i
    && IsDigits(qs)
    && IsRest(rest)
    && Val(a[i..]) == Val(qs) * vb + Val(rest.digits)
    && Val(rest.digits) < vb
  }

  /** The digit loop of `divide`, from the highest dividend digit down; quotient digits are the result's. */
  method LongDivide(a: seq<int>, divisor: BigNum) returns (qs: seq<int>, rest: BigNum)
    requires IsDigits(a) && IsRest(divisor) && !IsZero(divisor)
    ensures |qs| == |a| && IsDigits(qs) && IsRest(rest)
    ensures Val(a) == Val(qs) * Val(divisor.digits) + Val(rest.digits)
    ensures Val(rest.digits) < Val(divisor.digits)
  {
    var vb := Val(divisor.digits);
    ValBounds(divisor.digits);
    qs := [];
    rest := Zero;
    var i: nat := |a|;
    while i > 0
      invariant LongLoop(a, vb, qs, rest, i)
    {
      i := i - 1;
      ghost var before := Val(rest.digits);
      var brought := BringDown(rest, a[i]);
      var digit;
      digit, rest := QuotientDigit(divisor, brought);
      ValSuffixStep(a, i);
      ValPrepend(digit, qs);
      LongStep(Val(a[i + 1..]), a[i], Val(qs), vb, before, digit, Val(rest.digits));
      qs := [digit] + qs;
    }
    assert a[0..] == a;
  }

  /** Quotient and rest are determined by the division law. */
  lemma DivisionUnique(va: int, vb: int, q: int, r: int)
    requires 0 <= r < vb && va == q * vb + r
    ensures q == va / vb && r == va % vb
  {
    SplitUnique(r, q, va % vb, va / vb, vb);
  }

  /** The division law on magnitudes gives the signed law, the rest taking the dividend's sign. */
  lemma SignedDivision(sa: Sign, sb: Sign, va: int, vq: int, vb: int, r: int)
    requires va == vq * vb + r
    ensures sa * va == ((sa * sb) * vq) * (sb * vb) + sa * r
  {
    assert sb * sb == 1;
    calc {
      ((sa * sb) * vq) * (sb * vb);
      (sa * vq * vb) * (sb * sb);
      sa * (vq * vb);
    }
  }

  /**
   What a successful division leaves: q and rest satisfy the division law
   of the magnitudes, with 0 <= rest < |b|, and the signed law with the
   rest taking the dividend's sign.
   */
  ghost predicate IsDivision(a: BigNum, b: BigNum, q: BigNum, rest: BigNum) {
    && 0 < Val(b.digits)
    && IsDigits(q.digits)
    && IsRest(rest)
    && Val(a.digits) == Val(q.digits) * Val(b.digits) + Val(rest.digits)
    && Val(q.digits) == Val(a.digits) / Val(b.digits)
    && Val(rest.digits) == Val(a.digits) % Val(b.digits)
    && IntVal(a) == IntVal(q) * IntVal(b) + a.sign * IntVal(rest)
  }

  /** The division of two non-zero magnitudes, skipping the loop for a divisor of 1. */
  method DivideMagnitudes(a: seq<int>, b: seq<int>) returns (qs: seq<int>, r: BigNum)
    requires IsDigits(a) && IsDigits(b) && NoHighZeros(b) && !AllZero(a) && !AllZero(b)
    ensures IsDigits(qs) && IsRest(r)
    ensures Val(a) == Val(qs) * Val(b) + Val(r.digits) && Val(r.digits) < Val(b)
    ensures NoHighZeros(a) ==> NoHighZeros(qs)
    ensures b == [1] ==> qs == a
    ensures b != [1] ==> NoHighZeros(qs)
  {
    ValZeroIff(b);
    ValBounds(b);
    if |b| == 1 && b[0] == 1 {
      assert b == [1] && b[..0] == [];
      qs, r := a, Zero;
    } else {
      var full;
      full, r := LongDivide(a, BigNum(1, b));
      qs := TrimHighZeros(full);
    }
  }

  /** The law for a quotient and rest computed from the magnitudes. */
  lemma DivisionOf(a: BigNum, b: BigNum, q: BigNum, r: BigNum)
    requires IsDigits(a.digits) && IsDigits(b.digits) && !AllZero(b.digits)
    requires IsDigits(q.digits) && IsRest(r) && q.sign == a.sign * b.sign
    requires Val(a.digits) == Val(q.digits) * Val(b.digits) + Val(r.digits)
    requires Val(r.digits) < Val(b.digits)
    ensures IsDivision(a, b, q, r)
  {
    ValZeroIff(b.digits);
    ValBounds(b.digits);
    ValBounds(r.digits);
    DivisionUnique(Val(a.digits), Val(b.digits), Val(q.digits), Val(r.digits));
    SignedDivision(a.sign, b.sign, Val(a.digits), Val(q.digits), Val(b.digits), Val(r.digits));
  }

  /**
   `divide`: a zero divisor replaces the quotient with the division-by-zero
   error and sets no rest; a zero dividend comes back as it is with a zero
   rest; otherwise the quotient takes the product of the signs, its digits
   carry no high zeros when the dividend's do not, and the rest is the
   non-negative remainder of the magnitudes.
   */
  method Divide(a: BigNum, b: BigNum) returns (q: Value, rest: Option<BigNum>)
    requires IsDigits(a.digits) && IsDigits(b.digits)
    requires IsZero(b) || NoHighZeros(b.digits)
    ensures IsZero(b) <==> q.Failed?
    ensures IsZero(b) ==> q == Failed(DivisionByZero) && rest == None
    ensures !IsZero(b) ==> q.Num? && rest.Some? && IsDivision(a, b, q.n, rest.value)
    ensures !IsZero(b) && IsZero(a) ==> q == Num(a) && rest == Some(Zero)
    ensures !IsZero(b) && !IsZero(a) ==> q.n.sign == a.sign * b.sign
    ensures !IsZero(b) && NoHighZeros(a.digits) ==> NoHighZeros(q.n.digits)
    ensures !IsZero(b) && b.digits == [1] ==> q.n.digits == a.digits
    ensures !IsZero(b) && !IsZero(a) && b.digits != [1] ==> NoHighZeros(q.n.digits)
  {
    if IsZero(b) {
      return Failed(DivisionByZero), None;
    }
    if IsZero(a) {
      ValZeroIff(a.digits);
      ValZeroIff(b.digits);
      ValBounds(b.digits);
      DivisionOf(a, b, BigNum(a.sign * b.sign, a.digits), Zero);
      ZeroQuotient(a, b);
      return Num(a), Some(Zero);
    }
    var qs, r := DivideMagnitudes(a.digits, b.digits);
    q, rest := Num(BigNum(a.sign * b.sign, qs)), Some(r);
    DivisionOf(a, b, q.n, r);
  }

  /** A zero dividend is its own quotient, whatever its sign. */
  lemma ZeroQuotient(a: BigNum, b: BigNum)
    requires IsDigits(a.digits) && IsDigits(b.digits) && !AllZero(b.digits) && AllZero(a.digits)
    requires IsDivision(a, b, BigNum(a.sign * b.sign, a.digits), Zero)
    ensures IsDivision(a, b, a, Zero)
  {
    ValZeroIff(a.digits);
  }

  /**
   As written: `divide` multiplies the signs before the digit loop, so a
   dividend of smaller magnitude than a divisor of the other sign leaves
   the quotient "-0", which is not canonical.
   */
  method NegativeZeroQuotient(a: BigNum, b: BigNum) returns (q: Value)
    requires Canonical(a) && Canonical(b) && !IsZero(a)
    requires Val(a.digits) < Val(b.digits) && a.sign != b.sign
    ensures q == Num(BigNum(-1, [0]))
    ensures IntVal(q.n) == 0 && !Canonical(q.n)
  {
    ValBounds(a.digits);
    ValZeroIff(b.digits);
    var rest;
    q, rest := Divide(a, b);
    DivisionUnique(Val(a.digits), Val(b.digits), 0, Val(a.digits));
    ValZeroIff(q.n.digits);
    assert |q.n.digits| == 1;
    assert q.n.digits == [0];
  }

  /** As written: 3 divided by -5 gives the quotient "-0". */
  method NegativeZeroQuotientExample() returns (q: Value)
    ensures q == Num(BigNum(-1, [0]))
  {
    var three, minusFive := BigNum(1, [3]), BigNum(-1, [5]);
    assert Val([3]) == 3 && Val([5]) == 5 by {
      assert [3][..0] == [] && [5][..0] == [];
    }
    q := NegativeZeroQuotient(three, minusFive);
  }

  /**
   `divide` with a zero quotient given the sign +1: everything else as
   `divide` computes it, and canonical operands now give a canonical
   quotient.
   */
  method DivideNormalized(a: BigNum, b: BigNum) returns (q: Value, rest: Option<BigNum>)
    requires IsDigits(a.digits) && IsDigits(b.digits)
    requires IsZero(b) || NoHighZeros(b.digits)
    ensures IsZero(b) <==> q.Failed?
    ensures IsZero(b) ==> q == Failed(DivisionByZero) && rest == None
    ensures !IsZero(b) ==> q.Num? && rest.Some? && IsDivision(a, b, q.n, rest.value)
    ensures !IsZero(b) && !AllZero(q.n.digits) ==> q.n.sign == a.sign * b.sign
    ensures !IsZero(b) && AllZero(q.n.digits) ==> q.n.sign == 1
    ensures !IsZero(b) && Canonical(a) && Canonical(b) ==> Canonical(q.n)
  {
    q, rest := Divide(a, b);
    if q.Num? && AllZero(q.n.digits) {
      ValZeroIff(q.n.digits);
      q := Num(BigNum(1, q.n.digits));
    }
  }

  /** `mod`: the rest `divide` leaves, so both signs are ignored. */
  method Mod(a: BigNum, b: BigNum) returns (r: Option<BigNum>)
    requires IsDigits(a.digits) && IsDigits(b.digits)
    requires IsZero(b) || NoHighZeros(b.digits)
    ensures r.None? <==> IsZero(b)
    ensures r.Some? ==> IsRest(r.value) && Val(r.value.digits) == Val(a.digits) % Val(b.digits)
  {
    var q;
    q, r := DivideNormalized(a, b);
  }
}

=== FILE: multiplicative.dfy ===
/**
 The multiplicative kernel: schoolbook multiplication, one row per digit of
 the receiver, each row carrying into the positions above it.
 */
module Multiplicative {
  import opened Digits
  import opened BigNumbers

  /**
   What holds after row i: the partial product is a[..i] * b, and its length
   is i - 1 + |b| unless its top digit is non-zero.
   */
  ghost predicate MulLoop(a: seq<int>, b: seq<int>, r: seq<int>, i: nat) {
    && i <= |a|
    && IsDigits(r)
    && Val(r) == Val(a[..i]) * Val(b)
    && (i == 0 ==> r == [])
    && (i > 0 ==> |r| >= i - 1 + |b| && (|r| == i - 1 + |b| || r[|r| - 1] != 0))
  }

  /**
   The shape of the result inside row i after j positions: the carry is at
   most 9, and positions above i + j are either the previous row's or end in
   a non-zero digit.
   */
  ghost predicate RowShape(a: seq<int>, b: seq<int>, r: seq<int>, i: nat, j: nat, carry: int) {
    && i < |a|
    && 0 <= carry <= 9
    && i + j <= |r|
    && IsDigits(r)
    && (i > 0 ==> |r| >= i - 1 + |b|)
    && (|r| > i + j ==> r[|r| - 1] != 0 || |r| <= i - 1 + |b|)
    && (j > |b| && carry == 0 && |r| == i + j ==> r[i + j - 1] != 0)
  }

  /** The value inside row i: base, the product before the row, plus a[i] * b[..j] at weight 10^i. */
  ghost predicate RowSum(a: seq<int>, b: seq<int>, r: seq<int>, i: nat, j: nat, carry: int, base: int) {
    && i < |a|
    && Val(r) + carry * Pow10(i + j) == base + a[i] * Val(Low(b, j)) * Pow10(i)
  }

  ghost predicate RowLoop(a: seq<int>, b: seq<int>, r: seq<int>, i: nat, j: nat, carry: int, base: int) {
    RowShape(a, b, r, i, j, carry) && RowSum(a, b, r, i, j, carry, base)
  }

  /** Ten per position of b still to read or of r still to overwrite, plus the carry. */
  ghost function RowMeasure(b: seq<int>, r: seq<int>, i: nat, j: nat, carry: int): int {
    10 * ((if j < |b| then |b| - j else 0) + (|r| - (i + j))) + carry
  }

  lemma RowStart(a: seq<int>, b: seq<int>, r: seq<int>, i: nat)
    requires |b| > 0 && MulLoop(a, b, r, i) && i < |a|
    ensures RowLoop(a, b, r, i, 0, 0, Val(r))
  {
    assert Low(b, 0) == [];
  }

  /** Storing s % 10 at weight pk = pi * pj and carrying s / 10 keeps the row sum exact. */
  lemma MulCarryStep(v: int, carry: int, o: int, x: int, y: int, pi: int, pj: int, pk: int, vl: int, base: int)
    requires pk == pi * pj
    requires v + carry * pk == base + x * vl * pi
    ensures var s := carry + o + x * y;
      v + (s % 10 - o) * pk + (s / 10) * (10 * pk) == base + x * (vl + y * pj) * pi
  {
    var s := carry + o + x * y;
    var d, c := s % 10, s / 10;
    assert s == d + 10 * c;
    assert (d - o) * pk + c * (10 * pk) == (s - o) * pk;
    assert (s - o) * pk == carry * pk + x * y * pk;
    assert x * y * pk == x * y * pj * pi;
    assert x * (vl + y * pj) * pi == x * vl * pi + x * y * pj * pi;
  }

  /** One position of a row keeps the row sum. */
  lemma RowSumStep(a: seq<int>, b: seq<int>, r: seq<int>, i: nat, j: nat, carry: int, base: int, s: int)
    requires RowSum(a, b, r, i, j, carry, base) && i + j <= |r|
    requires s == carry + At(r, i + j) + a[i] * At(b, j)
    ensures RowSum(a, b, Put(r, i + j, s % 10), i, j + 1, s / 10, base)
  {
    var k := i + j;
    ValPut(r, k, s % 10);
    ValLowStep(b, j);
    Pow10Add(i, j);
    MulCarryStep(Val(r), carry, At(r, k), a[i], At(b, j), Pow10(i), Pow10(j), Pow10(k), Val(Low(b, j)), base);
    assert Pow10(k + 1) == 10 * Pow10(k);
  }

  /** One position of a row keeps the shape. */
  lemma RowShapeStep(a: seq<int>, b: seq<int>, r: seq<int>, i: nat, j: nat, carry: int, s: int)
    requires IsDigits(a) && IsDigits(b) && RowShape(a, b, r, i, j, carry)
    requires j < |b| || carry > 0
    requires s == carry + At(r, i + j) + a[i] * At(b, j)
    ensures RowShape(a, b, Put(r, i + j, s % 10), i, j + 1, s / 10)
  {
    var k := i + j;
    ProductDigitBound(a[i], At(b, j));
    RowDigitStep(carry, At(r, k), a[i] * At(b, j), s, j < |b|);
    var r' := Put(r, k, s % 10);
    assert IsDigits(r');
    assert |r'| > k + 1 ==> r'[|r'| - 1] != 0 || |r'| <= i - 1 + |b| by {
      if |r'| > k + 1 {
        assert |r'| == |r| && r'[|r| - 1] == r[|r| - 1];
      }
    }
  }

  /** One position of a row lowers the measure. */
  lemma RowMeasureStep(a: seq<int>, b: seq<int>, r: seq<int>, i: nat, j: nat, carry: int, s: int)
    requires IsDigits(a) && IsDigits(b) && RowShape(a, b, r, i, j, carry)
    requires j < |b| || carry > 0
    requires s == carry + At(r, i + j) + a[i] * At(b, j)
    ensures 0 <= RowMeasure(b, Put(r, i + j, s % 10), i, j + 1, s / 10) < RowMeasure(b, r, i, j, carry)
  {
    var k := i + j;
    ProductDigitBound(a[i], At(b, j));
    RowDigitStep(carry, At(r, k), a[i] * At(b, j), s, j < |b|);
    MeasureDrop(|b|, |r|, |Put(r, k, s % 10)|, k, j, carry, s / 10);
  }

  lemma ProductDigitBound(x: int, y: int)
    requires IsDigit(x) && IsDigit(y)
    ensures 0 <= x * y <= 81
  {
    MulLe(x, 9, y);
    MulLe(y, 9, 9);
  }

  /** The measure arithmetic: r grows by at most one place, and only at its end. */
  lemma MeasureDrop(nb: int, nr: int, nr': int, k: int, j: int, carry: int, carry': int)
    requires 0 <= j && k <= nr && 0 <= carry <= 9 && 0 <= carry' <= 9
    requires nr' == (if k < nr then nr else k + 1)
    requires j < nb || carry > 0
    requires j >= nb && k == nr ==> carry' < carry
    ensures 0 <= 10 * ((if j + 1 < nb then nb - j - 1 else 0) + (nr' - (k + 1))) + carry'
    ensures 10 * ((if j + 1 < nb then nb - j - 1 else 0) + (nr' - (k + 1))) + carry'
          < 10 * ((if j < nb then nb - j else 0) + (nr - k)) + carry
  {
  }

  /** The stored digit and the carry of one position, with the carry at most 9. */
  lemma RowDigitStep(carry: int, o: int, p: int, s: int, inB: bool)
    requires 0 <= carry <= 9 && 0 <= o <= 9 && 0 <= p <= 81 && s == carry + o + p
    requires inB || (p == 0 && carry > 0)
    ensures 0 <= s / 10 <= 9 && IsDigit(s % 10)
    ensures !inB && o == 0 ==> s / 10 < carry
    ensures !inB && s / 10 == 0 ==> s % 10 != 0
  {
  }

  /** The row loop ends with the product of a[..i + 1] and b. */
  lemma RowEnd(a: seq<int>, b: seq<int>, r: seq<int>, i: nat, j: nat)
    requires IsDigits(a) && IsDigits(b) && |b| > 0 && i < |a|
    requires RowLoop(a, b, r, i, j, 0, Val(a[..i]) * Val(b)) && j >= |b|
    ensures MulLoop(a, b, r, i + 1)
  {
    LowAll(b, j);
    ValPrefixStep(a, i);
    RowCombine(Val(a[..i]), Val(b), a[i], Pow10(i));
  }

  lemma RowCombine(va: int, vb: int, x: int, p: int)
    ensures va * vb + x * vb * p == (va + x * p) * vb
  {
  }

  lemma MulMonotone(x: int, y: int, lx: nat, ly: nat)
    requires lx <= x && ly <= y
    ensures lx * ly <= x * y
  {
    MulLe(lx, x, ly);
    MulLe(ly, y, x);
  }

  /** The full product of two non-zero operands without high zeros has none either. */
  lemma ProductNoHighZeros(a: seq<int>, b: seq<int>, r: seq<int>)
    requires IsDigits(a) && IsDigits(b) && |b| > 0 && MulLoop(a, b, r, |a|)
    requires NoHighZeros(a) && NoHighZeros(b) && !AllZero(a) && !AllZero(b)
    ensures NoHighZeros(r)
  {
    assert a[..|a|] == a;
    if |r| == |a| - 1 + |b| && r[|r| - 1] == 0 {
      TopDigitBound(a);
      TopDigitBound(b);
      MulMonotone(Val(a), Val(b), Pow10(|a| - 1), Pow10(|b| - 1));
      Pow10Add(|a| - 1, |b| - 1);
      HighZeroBound(r);
      assert false;
    }
  }

  /**
   The digit loops of `multiply`: row i adds a[i] * b into the result from
   position i upward, continuing past the end of b while a carry remains.
   */
  method MultiplyDigits(a: seq<int>, b: seq<int>) returns (r: seq<int>)
    requires IsDigits(a) && IsDigits(b) && |b| > 0
    ensures IsDigits(r)
    ensures Val(r) == Val(a) * Val(b)
    ensures |a| > 0 ==> |r| >= |a| + |b| - 1
    ensures NoHighZeros(a) && NoHighZeros(b) && !AllZero(a) && !AllZero(b) ==> NoHighZeros(r)
  {
    r := [];
    var i := 0;
    while i < |a|
      invariant MulLoop(a, b, r, i)
    {
      var carry := 0;
      var j := 0;
      ghost var base := Val(r);
      RowStart(a, b, r, i);
      while j < |b| || carry > 0
        invariant RowLoop(a, b, r, i, j, carry, base)
        decreases RowMeasure(b, r, i, j, carry)
      {
        var s := carry + At(r, i + j) + a[i] * At(b, j);
        RowShapeStep(a, b, r, i, j, carry, s);
        RowMeasureStep(a, b, r, i, j, carry, s);
        RowSumStep(a, b, r, i, j, carry, base, s);
        r := Put(r, i + j, s % 10);
        carry := s / 10;
        j := j + 1;
      }
      RowEnd(a, b, r, i, j);
      i := i + 1;
    }
    assert a[..i] == a;
    if NoHighZeros(a) && NoHighZeros(b) && !AllZero(a) && !AllZero(b) {
      ProductNoHighZeros(a, b, r);
    }
  }

  lemma SignedProduct(sa: int, sb: int, va: int, vb: int)
    ensures (sa * sb) * (va * vb) == (sa * va) * (sb * vb)
  {
  }

  /**
   `multiply`: a zero operand gives a fresh zero; otherwise the sign is the
   product of the signs and the digits are the schoolbook product.
   */
  method Multiply(a: BigNum, b: BigNum) returns (r: BigNum)
    requires IsDigits(a.digits) && IsDigits(b.digits)
    ensures WellFormed(r)
    ensures IntVal(r) == IntVal(a) * IntVal(b)
    ensures IsZero(a) || IsZero(b) ==> r == Zero
    ensures !IsZero(a) && !IsZero(b) ==> r.sign == a.sign * b.sign
    ensures Canonical(a) && Canonical(b) ==> Canonical(r)
  {
    if IsZero(a) || IsZero(b) {
      r := Zero;
      return;
    }
    var ds := MultiplyDigits(a.digits, b.digits);
    r := BigNum(a.sign * b.sign, ds);
    SignedProduct(a.sign, b.sign, Val(a.digits), Val(b.digits));
    if Canonical(a) && Canonical(b) {
      ValZeroIff(ds);
      ValZeroIff(a.digits);
      ValZeroIff(b.digits);
    }
  }
}

=== FILE: normalization.dfy ===
/**
 The constructor keeps leading zeros and a negative zero as written, and
 the comparator's length shortcut then misorders numbers. Normalising after
 construction (dropping high zeros, giving zero the sign +1) restores the
 integer order.
 */
module Normalization {
  import opened Digits
  import opened BigNumbers
  import opened Construction
  import opened Comparison

  /** As written: "5" compares below "003", because "003" has more digits. */
  lemma LeadingZerosMisorder()
    ensures FromString("5").Num? && FromString("003").Num?
    ensures IntVal(FromString("5").n) > IntVal(FromString("003").n)
    ensures Lt(FromString("5").n, FromString("003").n)
  {
    var five, three := FromString("5"), FromString("003");
    assert "5"[0..] == "5" && "003"[0..] == "003";
    assert five == Num(BigNum(1, [5]));
    assert three == Num(BigNum(1, [3, 0, 0]));
    assert Val([5]) == 5 by {
      assert [5][..0] == [];
    }
    assert Val([3, 0, 0]) == 3 by {
      assert [3, 0, 0][..2] == [3, 0];
      assert [3, 0][..1] == [3];
      assert [3][..0] == [];
    }
  }

  /**
   As written: a negative and a positive number with only zero digits both
   denote 0 but are not `equals`; "-0" and "0" construct such a pair.
   */
  lemma NegativeZeroUnequal(ds: seq<int>)
    requires IsDigits(ds) && AllZero(ds)
    ensures IntVal(BigNum(-1, ds)) == IntVal(BigNum(1, ds)) == 0
    ensures !Equals(BigNum(-1, ds), BigNum(1, ds))
    ensures FromString("-0") == Num(BigNum(-1, [0])) && FromString("0") == Num(BigNum(1, [0]))
  {
    ValZeroIff(ds);
    assert "-0"[1..] == "0" && "0"[0..] == "0";
  }

  /** Drops high zero digits and gives zero the sign +1. */
  function Normalize(x: BigNum): (r: BigNum)
    requires WellFormed(x)
    ensures Canonical(r)
    ensures IntVal(r) == IntVal(x)
    ensures Canonical(x) ==> r == x
  {
    var ds := TrimHighZeros(x.digits);
    NormalizeMeaning(x, ds);
    if AllZero(ds) then Zero else BigNum(x.sign, ds)
  }

  lemma NormalizeMeaning(x: BigNum, ds: seq<int>)
    requires WellFormed(x) && ds == TrimHighZeros(x.digits)
    ensures AllZero(ds) ==> Canonical(Zero) && IntVal(x) == 0
    ensures Canonical(x) ==> ds == x.digits
    ensures !AllZero(ds) ==> Canonical(BigNum(x.sign, ds))
  {
    ValZeroIff(ds);
    ValZeroIff(x.digits);
    assert Zero.digits[..0] == [];
    if Canonical(x) && |x.digits| > 1 {
      assert x.digits[|x.digits| - 1] != 0;
    }
  }

  /**
   Construction from a string followed by normalisation; a sign with no
   digits after it is rejected as well.
   */
  function FromStringNormalized(s: string): (v: Value)
    ensures v.Num? <==> IsDecimalLiteral(s)
    ensures v.Failed? ==> v.err == InvalidNumber
    ensures v.Num? ==> Canonical(v.n) && IntVal(v.n) == IntVal(FromString(s).n)
  {
    match FromString(s)
    case Failed(e) => Failed(e)
    case Num(x) => if |x.digits| == 0 then Failed(InvalidNumber) else Num(Normalize(x))
  }

  /** After normalisation the comparator is the integer order, whatever the digits were. */
  lemma CompareNormalized(a: BigNum, b: BigNum)
    requires WellFormed(a) && WellFormed(b)
    ensures Compare(Normalize(a), Normalize(b)) == Sgn(IntVal(a) - IntVal(b))
    ensures Equals(Normalize(a), Normalize(b)) <==> IntVal(a) == IntVal(b)
  {
    CompareIsSignOfDifference(Normalize(a), Normalize(b));
  }

  /** Parsed with normalisation, "5" is above "003" and "-0" equals "0". */
  lemma NormalizedExamples()
    ensures FromStringNormalized("5").Num? && FromStringNormalized("003").Num?
    ensures Gt(FromStringNormalized("5").n, FromStringNormalized("003").n)
    ensures FromStringNormalized("-0") == FromStringNormalized("0")
  {
    LeadingZerosMisorder();
    NegativeZeroUnequal([0]);
    CompareNormalized(FromString("5").n, FromString("003").n);
    CompareNormalized(FromString("-0").n, FromString("0").n);
    CanonicalZero(FromStringNormalized("-0").n);
    CanonicalZero(FromStringNormalized("0").n);
  }
}

=== FILE: number.dfy ===
/**
 The sign-magnitude value of the engine: a sign of +1 or -1 beside a digit
 sequence, or one of the two error states that replace the digits.
 */
module BigNumbers {
  import opened Digits

  type Sign = s: int | s == 1 || s == -1 witness 1

  /** A number in sign-magnitude form; `digits` is least-significant first. */
  datatype BigNum = BigNum(sign: Sign, digits: seq<int>)

  /** The two error states: "Invalid Number" and "Invalid Number - Division By Zero". */
  datatype Error = InvalidNumber | DivisionByZero

  /** What a constructed or divided number holds: digits and a sign, or an error. */
  datatype Value = Num(n: BigNum) | Failed(err: Error)

  datatype Option<T> = None | Some(value: T)

  /** The number a fresh `new BigNumber(0)` holds. */
  const Zero: BigNum := BigNum(1, [0])

  /** Digits in range and at least one of them: what a parsed decimal literal holds. */
  predicate WellFormed(x: BigNum) {
    IsDigits(x.digits) && |x.digits| > 0
  }

  /**
   The representation the length-based comparison relies on: no high zero
   digits except in [0] itself, and zero carries the sign +1.
   */
  predicate Canonical(x: BigNum) {
    IsDigits(x.digits) && NoHighZeros(x.digits) && (AllZero(x.digits) ==> x.sign == 1)
  }

  /** The signed integer a number denotes. */
  function IntVal(x: BigNum): int {
    x.sign * Val(x.digits)
  }

  /** `isZero`: every stored digit is 0 (vacuously so for no digits). */
  function IsZero(x: BigNum): (r: bool)
    ensures IsDigits(x.digits) ==> (r <==> IntVal(x) == 0)
  {
    ZeroTestMeaning(x);
    AllZero(x.digits)
  }

  lemma ZeroTestMeaning(x: BigNum)
    ensures IsDigits(x.digits) ==> (AllZero(x.digits) <==> IntVal(x) == 0)
  {
    if IsDigits(x.digits) {
      ValZeroIff(x.digits);
    }
  }

  /** `isEven`: the lowest stored digit is even; with no digits the test is false. */
  function IsEven(x: BigNum): (r: bool)
    ensures WellFormed(x) ==> (r <==> IntVal(x) % 2 == 0)
  {
    ParityOfLowestDigit(x);
    |x.digits| > 0 && x.digits[0] % 2 == 0
  }

  lemma ParityOfLowestDigit(x: BigNum)
    ensures WellFormed(x) ==> IntVal(x) % 2 == x.digits[0] % 2
  {
    if !WellFormed(x) {
      return;
    }
    var ds := x.digits;
    ValLowestDigit(ds);
    ParityOfSigned(x.sign, ds[0], Val(ds[1..]), Val(ds));
  }

  /** An integer s * (d + 10 q) with s = 1 or -1 has the parity of d. */
  lemma ParityOfSigned(s: Sign, d: int, q: int, v: int)
    requires v == d + 10 * q
    ensures (s * v) % 2 == d % 2
  {
    var k := if s == 1 then 5 * q else -5 * q - d;
    assert s * v == d + 2 * k;
    EvenShift(d, k);
  }

  lemma EvenShift(d: int, k: int)
    ensures (d + 2 * k) % 2 == d % 2
  {
    var r, h := d % 2, d / 2;
    assert d == 2 * h + r && 0 <= r < 2;
    Mod2(d + 2 * k, h + k, r);
  }

  lemma Mod2(n: int, h: int, r: int)
    requires n == 2 * h + r && 0 <= r < 2
    ensures n % 2 == r
  {
  }

  /** `abs`: the sign becomes +1 and the digits stay as they are. */
  function Abs(x: BigNum): (r: BigNum)
    ensures r.digits == x.digits && r.sign == 1
    ensures IsDigits(x.digits) ==> IntVal(r) == if IntVal(x) < 0 then -IntVal(x) else IntVal(x)
    ensures Canonical(x) ==> Canonical(r)
  {
    NonNegativeMagnitude(x);
    BigNum(1, x.digits)
  }

  lemma NonNegativeMagnitude(x: BigNum)
    ensures IsDigits(x.digits) ==> Val(x.digits) >= 0
  {
    if IsDigits(x.digits) {
      ValBounds(x.digits);
    }
  }

  /** A canonical number is determined by the integer it denotes. */
  lemma CanonicalUnique(a: BigNum, b: BigNum)
    requires Canonical(a) && Canonical(b)
    requires IntVal(a) == IntVal(b)
    ensures a == b
  {
    ValBounds(a.digits);
    ValBounds(b.digits);
    ValZeroIff(a.digits);
    ValZeroIff(b.digits);
    if Val(a.digits) == 0 {
      CanonicalZeroDigits(a.digits);
      CanonicalZeroDigits(b.digits);
    } else {
      assert a.sign == b.sign;
      assert Val(a.digits) == Val(b.digits);
      ValUnique(a.digits, b.digits);
    }
  }

  /** The canonical number that denotes zero is `Zero`. */
  lemma CanonicalZero(x: BigNum)
    requires Canonical(x) && IntVal(x) == 0
    ensures x == Zero
  {
    CanonicalUnique(x, Zero);
  }
}
